=== FILE: README.md ===
# Pomodoro timer state machine

This project models the timer logic of `PomodoroTimer` (pomodoro.py), a desktop pomodoro
timer. Work intervals alternate with breaks, and every fourth completed work interval is
followed by a long break instead of a short one. The timer's state is:

- three durations in seconds (work, short break, long break);
- the number of completed work intervals;
- a running flag and the remaining seconds;
- the blink state: the `blinking` flag, `blink_count`, and whether the background currently
  shows the blink colour;
- the phase. The program keeps the phase only as the status label text: "준비" is Idle,
  "작업 중" is Working, "짧은 휴식" is ShortBreak and "긴 휴식" is LongBreak.

The project has four modules:

- `Decimal` (decimal.dfy): decimal spelling of integers, used for the zero-padded display.
  It also holds `ParseInt`, which stands in for Python's `int(...)` on the settings entries
  and returns either an integer or nothing.
- `Clock` (clock.dfy): `format_time` ("MM:SS") and `ParseClock`, its inverse.
- `TimerSpec` (timer_spec.dfy): the timer's fields as a `TimerState` value, with one pure
  function per step: toggle, tick, blink step, complete, reset and apply. The lemmas state
  what these steps guarantee, alone and in sequence.
- `Timer` (timer.dfy): the class `PomodoroTimer` with the same fields, updated in place. Each
  method is proved to change the fields exactly as the matching `TimerSpec` step does.

## Behaviour followed from the code

In several places the program's comments, its settings panel or the usual pomodoro conventions suggest a different behaviour. The model follows what the code does:

- The initial durations are 50, 10 and 30 minutes (pomodoro.py:16-18). The comments and the
  spin boxes say 25, 5 and 15.
- Start/pause is a toggle that changes only the running flag. Pressing it twice restores the
  state. It never moves Idle to Working.
- So the first completion after a reset happens in Idle. It takes the "not Working" branch:
  it arms Working and counts nothing. Every non-Working phase, Idle included, completes to
  Working.
- `apply_settings` does not check that values are positive. It assigns the three durations one
  at a time. A parse failure keeps the assignments already made and skips the rest. Only a
  full success on a stopped timer resets the remaining time, and it resets it to the work
  duration whatever the phase. The blink is not touched.
- `timer_complete` runs one blink step right away. If an earlier blink had just reached its
  tenth toggle, that step ends the blink. So a completion leaves `blinking` false in that case.
- There is no settings file. Nothing in pomodoro.py loads or saves settings.

## Model

| member | source | states |
|---|---|---|
| `Decimal.NatToDecimal` | pomodoro.py:92 | the decimal spelling of a natural is non-empty, all digits, one digit exactly below 10, and has no leading zero |
| `Decimal.DecimalRoundTrip` | pomodoro.py:92 | reading back the spelling of n gives n |
| `Decimal.LeadingZero` | pomodoro.py:92 | the zero that `02d` pads with does not change the value read back |
| `Decimal.ParseInt` | pomodoro.py:203-205 | `int(text)` for base-10 text: an optional sign and one or more digits give their value (stated by `ParseIntValue`), anything else fails; a success needs non-empty text, and a negative result needs a leading '-' |
| `Decimal.ParseIntRoundTrip` | pomodoro.py:203-205 | `int(str(n)) == n` for every integer, negatives included |
| `Decimal.ParseIntValue` | pomodoro.py:203-205 | the value of every accepted text, canonical or not: a digit string reads as its decimal value with leading zeros allowed ("05" is 5), '+' before it keeps that value and '-' negates it |
| `Decimal.ParseIntAccepts` | pomodoro.py:203-205 | the parse succeeds exactly on an optional sign followed by one or more digits; text with no digit (like "abc") always fails |
| `Clock.Pad2` | pomodoro.py:92 | the `:02d` format: '-' and the magnitude for a negative number, a '0' before a single digit, the plain spelling otherwise; its contract gives at least two characters, all digits for n >= 0, starting with '-' exactly when n < 0, and `Pad2Digits` gives the value of the digits for both signs |
| `Clock.FormatTime` | pomodoro.py:88-92 | floor minutes and remainder by 60, each `02d`-padded, joined by ':' (also the `divmod` display at 111-112); the result ends in ':' and two digits, and starts with '-' exactly when the input is negative |
| `Clock.Pad2Digits` | pomodoro.py:92 | `02d` of n >= 0 is at least two digits (exactly two below 100) spelling n, with no leading zero from 10 on, so 100 shows as "100"; a negative number is '-' followed by the digits of its magnitude, so -1 shows as "-1" |
| `Clock.FormatTimeFields` | pomodoro.py:88-92 | for any input, the display ends in ':' and two digits equal to seconds % 60, which is below 60; for input >= 0 the minutes are at least two digits, equal seconds / 60, have no leading zero from 10 minutes on, make the display exactly five characters below 100 minutes, and minutes * 60 + seconds gives the input back; for input < 0 a '-' precedes the digits of the magnitude of the floored minutes (-60 shows as "-1:00") |
| `Clock.ClockRoundTrip` | pomodoro.py:88-92 | the display reads back as the input exactly when the input is >= 0; a negative input does not read back as a clock value |
| `TimerSpec.Initial` | pomodoro.py:15-24 | the state `__init__` builds: 50/10/30 minutes in seconds, count 0, stopped, no blink (count 0, original colour), Idle; the remaining time equals the work duration and work > long break > short break > 0 |
| `TimerSpec.Toggle` | pomodoro.py:94-106 | the start/pause button: flips the running flag and changes nothing else |
| `TimerSpec.Tick` | pomodoro.py:110-118 | one loop iteration: one second off when time is left and the timer runs; only the remaining time changes, either not at all or by one second of a running timer to a value >= 0 |
| `TimerSpec.Ticks` | pomodoro.py:110-118 | n loop iterations: only the remaining time changes; it never grows, drops by at most n, and never goes below zero from a non-negative start |
| `TimerSpec.BlinkStep` | pomodoro.py:124-140 | one `blink_background` call: at count >= 10 stop and restore the colour, else while blinking toggle the colour and count one; only the blink fields change, the count stays <= 10 and a stopped blink is never started |
| `TimerSpec.Blinks` | pomodoro.py:124-140 | n calls of `blink_background` in a row, with the same three guarantees as one call |
| `TimerSpec.Complete` | pomodoro.py:155-186 | `timer_complete`: stop, start the blink with one immediate step, then arm the next phase; the timer ends stopped and never Idle, durations are kept, and the count grows by one exactly when the completed phase was Working |
| `TimerSpec.FinishRun` | pomodoro.py:121-122 | the check after the loop: complete when time is up and the timer runs, else no change; so any change stops a running timer |
| `TimerSpec.Run` | pomodoro.py:108-122 | a whole uninterrupted `run_timer`: a running timer ends stopped in a non-Idle phase, a stopped one is unchanged |
| `TimerSpec.Reset` | pomodoro.py:188-198 | `reset_timer`: Idle, stopped, no blink (blink count 0, original colour), interval count 0, remaining = work duration; the durations are kept |
| `TimerSpec.Apply` | pomodoro.py:200-214 | `apply_settings` on the three entry texts, assigning in order and stopping at the first parse failure; phase, count, running flag and blink are kept, a failure leaves the remaining time and the long break alone, and a success means all three texts parsed and, on a stopped timer, leaves the new work duration as the remaining time |
| `TimerSpec.ToggleFlipsRunning` | pomodoro.py:94-106 | start/pause flips `timer_running` and nothing else; pressing twice restores the state |
| `TimerSpec.TicksFloorAtZero` | pomodoro.py:110-118 | n loop iterations on a running timer with time t > 0 leave max(0, t - n), which is t - min(n, t); a paused timer or one with no time left does not move; only the remaining time changes |
| `TimerSpec.CompletionTrigger` | pomodoro.py:121-122 | completion changes the state exactly when remaining <= 0 and the timer is running, and then stops the timer |
| `TimerSpec.CompletionStartsBlink` | pomodoro.py:157-164 | completion stops the timer; blinking is on afterwards exactly when the old blink count was below 10; the first toggle happens at once, or an expired blink is reset to count 0 on the original colour |
| `TimerSpec.RunCompletes` | pomodoro.py:108-122 | a run nobody pauses, started while running, counts down to zero (or keeps a non-positive time) and then completes the phase |
| `TimerSpec.WorkCompletion` | pomodoro.py:167-178 | completing Working adds exactly 1 to the count; the next phase is LongBreak with the long duration iff the new count % 4 == 0, otherwise ShortBreak with the short duration; the timer is stopped |
| `TimerSpec.NonWorkCompletion` | pomodoro.py:179-181 | completing Idle, ShortBreak or LongBreak arms Working with the work duration and leaves the count unchanged |
| `TimerSpec.CompletionKeepsDurations` | pomodoro.py:155-186 | the full frame of completion: it stops the timer and may set the count, remaining time, phase and blink fields, and never writes the three durations |
| `TimerSpec.CycleFromRest` | pomodoro.py:179-181 | start plus an uninterrupted run from a stopped non-Working timer ends stopped in Working with the full work duration and the same count |
| `TimerSpec.CycleFromWork` | pomodoro.py:167-178 | start plus an uninterrupted run from a stopped Working timer counts one interval and ends stopped in the break that the new count calls for, with that break's duration |
| `TimerSpec.LongBreakEveryFourth` | pomodoro.py:167-181 | after a reset and repeated start-and-run-out, run 2n+1 ends in Working with count n, and run 2n+2 ends with count n+1 in LongBreak iff (n+1) % 4 == 0, else ShortBreak |
| `TimerSpec.ResetState` | pomodoro.py:188-198 | from any state, reset gives stopped, no blink, count 0 on the original colour, Idle and the full work duration; durations are unchanged and reset is idempotent |
| `TimerSpec.ResetForgetsHistory` | pomodoro.py:188-198 | two timers with the same durations reset to the same state, whatever happened before |
| `TimerSpec.BlinkSequence` | pomodoro.py:124-140 | a blink started at count 0 on the original colour toggles exactly ten times: after k <= 10 steps the count is k and the blink colour shows iff k is odd; step 11 stops it, count 0, original colour |
| `TimerSpec.BlinkIdle` | pomodoro.py:132-140 | a stopped blink below its limit stays unchanged under any number of further calls |
| `TimerSpec.ApplyInOrder` | pomodoro.py:200-214 | fields are updated in order, each parsed minute value m stored as m*60; the first parse failure keeps the earlier assignments and leaves that field, the later ones and the remaining time unchanged; on full success a stopped timer's remaining time becomes the new work duration; phase, count, running flag and blink never change; `ok` iff all three parse |
| `TimerSpec.ApplyIdempotent` | pomodoro.py:200-214 | applying the same three texts twice has the same effect as applying them once |
| `TimerSpec.ApplyShowsWholeMinutes` | pomodoro.py:207-210 | after a successful update of a stopped timer with m >= 0 work minutes, the display is m zero-padded followed by ":00", and it reads back as m*60 seconds |
| `TimerSpec.NegativeMinutesAccepted` | pomodoro.py:203-214 | no positivity check: "-1" work minutes on a stopped timer is accepted and leaves -60 seconds remaining, which the display cannot read back |
| `TimerSpec.StepsKeepSane` | pomodoro.py:15-24 | the initial state has non-negative durations and remaining time and a blink count <= 10; toggle, tick, any run of ticks, blink step, completion, a full run and reset all keep that |
| `TimerSpec.ApplyKeepsSane` | pomodoro.py:200-214 | the settings update keeps that invariant iff none of the minute values it stores is negative |
| `Timer.PomodoroTimer.constructor` | pomodoro.py:15-24 | the new timer is Idle and stopped, with 50/10/30 minutes, count 0, no blink and the full work duration left |
| `Timer.PomodoroTimer.StartTimer` | pomodoro.py:94-106 | flips `timer_running` and changes no other field |
| `Timer.PomodoroTimer.Tick` | pomodoro.py:110-118 | one loop iteration: takes one second off only when time is left and the timer runs; nothing else changes |
| `Timer.PomodoroTimer.RunTimer` | pomodoro.py:108-122 | the loop and the check after it: a running timer counts down to zero and completes its phase; a stopped one is unchanged |
| `Timer.PomodoroTimer.BlinkBackground` | pomodoro.py:124-140 | at count >= 10 it stops the blink, resets the count and restores the colour; otherwise, while blinking, it toggles the colour and counts one; the count stays <= 10 |
| `Timer.PomodoroTimer.TimerComplete` | pomodoro.py:155-186 | stops the timer and starts the blink; from Working it adds one to the count and arms LongBreak on every fourth, ShortBreak otherwise; from any other phase it arms Working with the work duration, count unchanged |
| `Timer.PomodoroTimer.ResetTimer` | pomodoro.py:188-198 | Idle, stopped, count 0, blink cancelled on the original colour, remaining = work duration; the durations are kept |
| `Timer.PomodoroTimer.ApplySettings` | pomodoro.py:200-214 | updates the fields in order as `TimerSpec.Apply` says; phase, count and running flag are kept; `ok` iff all three entries parse |
| `Timer.TwoRunsAfterReset` | pomodoro.py:155-198 | a timer that is reset, then started and run out twice, ends stopped in ShortBreak with count 1 and the short-break duration left: the first run only armed Working |

## Left out

- Widgets, fonts, colour values and the `messagebox` dialogs are presentation (`setup_ui`,
  `set_bg_color`, the `config` calls). The background colour is modelled only as a flag for
  "blink colour showing". The success and error dialogs become the `ok` result of
  `ApplySettings`.
- The display label updates (pomodoro.py:111-115, 185, 197, 210) are left out. Their text is
  `Clock.FormatTime` of the remaining time.
- The background thread, `time.sleep` and `root.after` scheduling are left out. One loop
  iteration is one atomic `Tick`, and `RunTimer` runs the whole loop without interruption.
  The model does not capture what happens while the loop sleeps for one second: the
  decrement after the sleep (pomodoro.py:117-118) still happens in the code after a pause, after
  `reset_timer` on a running timer (pomodoro.py:190, 195), and after a successful
  `apply_settings` on a timer paused less than a second earlier (pomodoro.py:208-209). In the
  last two cases the program then usually holds one second less than the work duration just
  set; `ResetState`, `ApplyInOrder` and the class methods describe the atomic steps only.
  Two threads started by a quick pause-and-start are not captured either. Neither is the
  500 ms cadence of the blink.
- `winsound.Beep` is a foreign side effect with no effect on the state.
- `Decimal.ParseInt` accepts only an optional sign followed by ASCII digits. It does not model
  the other forms Python's `int()` accepts: surrounding whitespace, underscores between digits
  and non-ASCII digits. It also has no digit limit: current CPython's `int()` rejects text
  of more than 4300 digits with `ValueError`, so `ParseInt` and `ParseIntRoundTrip` accept
  longer digit strings than the interpreter does.
- Loading and saving settings is not part of this model. pomodoro.py has no settings store.

=== FILE: clock.dfy ===
/** The "MM:SS" display of the timer (`PomodoroTimer.format_time`, and the
    identical `divmod` formatting inside `run_timer`), with its inverse. */
module Clock {
  import opened Decimal

  /** Python's `f"{n:02d}"`: zero-padded to width two; a negative number
      keeps its sign in front and, being at least two characters long
      already, gets no padding. */
  function Pad2(n: int): (r: string)
    ensures |r| >= 2 && (r[0] == '-' <==> n < 0)
    ensures n >= 0 ==> AllDigits(r)
  {
    if n < 0 then "-" + NatToDecimal(-n)
    else if n < 10 then "0" + NatToDecimal(n)
    else NatToDecimal(n)
  }

  /** `format_time(seconds)`: floor-divided minutes, then the remainder.
      Python's `//` and `%` floor; with the positive divisor 60 this is
      exactly Dafny's Euclidean `/` and `%`, negative input included. */
  function FormatTime(seconds: int): (r: string)
    ensures |r| >= 5 && r[|r| - 3] == ':' && AllDigits(r[|r| - 2..])
    ensures r[0] == '-' <==> seconds < 0
  {
    var t := Pad2(seconds / 60) + ":" + Pad2(seconds % 60);
    Pad2Digits(seconds % 60);
    assert t[|t| - 2..] == Pad2(seconds % 60);
    t
  }

  /** Reads a display string back into seconds: at least one minute digit,
      a colon, and exactly two second digits below 60. */
  function ParseClock(t: string): (r: Option<int>) {
    if |t| >= 4 && t[|t| - 3] == ':' && AllDigits(t[..|t| - 3]) && AllDigits(t[|t| - 2..])
       && DecimalToNat(t[|t| - 2..]) < 60
    then Some(DecimalToNat(t[..|t| - 3]) * 60 + DecimalToNat(t[|t| - 2..]))
    else None
  }

  /** A non-negative number is padded to at least two digits (exactly two
      below 100) that still spell its value, with no padding zero from 10
      on; a negative one is '-' followed by the digits of its magnitude. */
  lemma Pad2Digits(n: int)
    ensures n >= 0 ==> |Pad2(n)| >= 2 && AllDigits(Pad2(n)) && DecimalToNat(Pad2(n)) == n
    ensures 0 <= n < 100 ==> |Pad2(n)| == 2
    ensures n >= 10 ==> Pad2(n)[0] != '0'
    ensures n < 0 ==> |Pad2(n)| >= 2 && Pad2(n)[0] == '-'
    ensures n < 0 ==> AllDigits(Pad2(n)[1..]) && DecimalToNat(Pad2(n)[1..]) == -n
  {
    if 0 <= n < 10 {
      DecimalRoundTrip(n);
      LeadingZero(NatToDecimal(n));
    } else if n >= 10 {
      DecimalRoundTrip(n);
    } else {
      DecimalRoundTrip(-n);
      assert Pad2(n)[1..] == NatToDecimal(-n);
    }
  }

  /** The fields of the display: whatever the input, the last two
      characters are the seconds 0..59 and stand after a colon; for a
      non-negative input the minutes before the colon are at least two
      digits (exactly two below 100 minutes, without a leading zero from 10
      minutes on) and minutes * 60 + seconds gives the input back; for a
      negative input a '-' precedes the digits of the floored minutes'
      magnitude. */
  lemma FormatTimeFields(seconds: int)
    ensures var t := FormatTime(seconds);
      |t| >= 5 && t[|t| - 3] == ':' && AllDigits(t[|t| - 2..])
      && DecimalToNat(t[|t| - 2..]) == seconds % 60 < 60
      && (seconds >= 0 ==>
            AllDigits(t[..|t| - 3]) && |t[..|t| - 3]| >= 2
            && (seconds / 60 < 100 ==> |t| == 5)
            && (seconds / 60 >= 10 ==> t[0] != '0')
            && DecimalToNat(t[..|t| - 3]) == seconds / 60
            && DecimalToNat(t[..|t| - 3]) * 60 + DecimalToNat(t[|t| - 2..]) == seconds)
      && (seconds < 0 ==>
            AllDigits(t[1..|t| - 3]) && DecimalToNat(t[1..|t| - 3]) == -(seconds / 60))
  {
    var mm, ss := Pad2(seconds / 60), Pad2(seconds % 60);
    Pad2Digits(seconds / 60);
    Pad2Digits(seconds % 60);
    var t := FormatTime(seconds);
    assert t == mm + ":" + ss;
    assert |ss| == 2;
    assert t[|t| - 2..] == ss;
    assert t[..|t| - 3] == mm;
    if seconds < 0 {
      assert t[1..|t| - 3] == mm[1..];
    }
  }

  /** Reading the display back gives the remaining seconds exactly when
      they are non-negative; a negative count shows a '-' and reads back
      as nothing. */
  lemma ClockRoundTrip(seconds: int)
    ensures ParseClock(FormatTime(seconds)) == if seconds >= 0 then Some(seconds) else None
  {
    var t := FormatTime(seconds);
    if seconds < 0 {
      assert t[..|t| - 3][0] == t[0] == '-';
      assert !AllDigits(t[..|t| - 3]);
    } else {
      FormatTimeFields(seconds);
      var minutes, secs := t[..|t| - 3], t[|t| - 2..];
      assert AllDigits(minutes) && AllDigits(secs) && DecimalToNat(secs) < 60;
      assert ParseClock(t) == Some(DecimalToNat(minutes) * 60 + DecimalToNat(secs));
    }
  }
}

=== FILE: decimal.dfy ===
/** Decimal digits: the integer-to-text conversion behind the timer's
    `{:02d}` formatting, and the text-to-integer parse applied to the
    three minute entries of the settings panel (Python's `int(...)`,
    reduced to an optional sign followed by decimal digits). */
module Decimal {

  datatype Option<T> = None | Some(value: T)

  predicate IsDigit(c: char) {
    '0' <= c <= '9'
  }

  predicate AllDigits(s: string) {
    forall i :: 0 <= i < |s| ==> IsDigit(s[i])
  }

  function DigitValue(c: char): (d: nat)
    requires IsDigit(c)
    ensures d < 10
  {
    (c as int) - ('0' as int)
  }

  function DigitChar(d: nat): (c: char)
    requires d < 10
    ensures IsDigit(c) && DigitValue(c) == d
  {
    ((('0' as int) + d) as char)
  }

  /** The decimal spelling of `n`, most significant digit first, without
      leading zeros (Python's `str(n)` for `n >= 0`). */
  function NatToDecimal(n: nat): (r: string)
    ensures |r| >= 1 && AllDigits(r)
    ensures |r| == 1 <==> n < 10
    ensures n >= 10 ==> r[0] != '0'
  {
    if n < 10 then [DigitChar(n)] else NatToDecimal(n / 10) + [DigitChar(n % 10)]
  }

  /** The value of a string of decimal digits; leading zeros are allowed. */
  function DecimalToNat(s: string): (r: nat)
    requires AllDigits(s)
    ensures s == [] ==> r == 0
  {
    if s == [] then 0 else DecimalToNat(s[..|s| - 1]) * 10 + DigitValue(s[|s| - 1])
  }

  /** Reading back the spelling of `n` gives `n`. */
  lemma {:induction false} DecimalRoundTrip(n: nat)
    ensures DecimalToNat(NatToDecimal(n)) == n
  {
    var r := NatToDecimal(n);
    if n >= 10 {
      DecimalRoundTrip(n / 10);
      assert r[..|r| - 1] == NatToDecimal(n / 10);
    }
  }

  /** A leading zero does not change the value of a digit string. */
  lemma {:induction false} LeadingZero(s: string)
    requires AllDigits(s)
    ensures AllDigits("0" + s) && DecimalToNat("0" + s) == DecimalToNat(s)
  {
    if s != [] {
      LeadingZero(s[..|s| - 1]);
      assert ("0" + s)[..|s|] == "0" + s[..|s| - 1];
    }
  }

  /** Python's `str(n)` for any integer: a minus sign before the magnitude. */
  function IntToDecimal(n: int): (r: string)
    ensures |r| >= 1
    ensures (r[0] == '-') <==> n < 0
  {
    if n < 0 then "-" + NatToDecimal(-n) else NatToDecimal(n)
  }

  /** `int(text)` for base-10 text: an optional `+` or `-` followed by at
      least one digit; anything else is a parse failure (`ValueError`). */
  function ParseInt(text: string): (r: Option<int>)
    ensures r.Some? ==> |text| > 0 && (r.value < 0 ==> text[0] == '-')
    ensures r.Some? && text[0] == '-' ==> r.value <= 0
  {
    if |text| > 0 && (text[0] == '-' || text[0] == '+') then
      var digits := text[1..];
      if |digits| > 0 && AllDigits(digits) then
        var magnitude: int := DecimalToNat(digits);
        Some(if text[0] == '-' then -magnitude else magnitude)
      else None
    else if |text| > 0 && AllDigits(text) then Some(DecimalToNat(text))
    else None
  }

  /** Every integer's own spelling parses back to it. */
  lemma ParseIntRoundTrip(n: int)
    ensures ParseInt(IntToDecimal(n)) == Some(n)
  {
    var text := IntToDecimal(n);
    if n < 0 {
      var digits := NatToDecimal(-n);
      DecimalRoundTrip(-n);
      assert text == "-" + digits;
      assert text[0] == '-' && text[1..] == digits;
      assert ParseInt(text) == Some(-(DecimalToNat(digits) as int));
    } else {
      DecimalRoundTrip(n);
      assert text == NatToDecimal(n) && IsDigit(text[0]);
      assert ParseInt(text) == Some(DecimalToNat(text));
    }
  }

  /** The value of every accepted text, canonical or not: digits read as
      their value, leading zeros included ("05" is 5), and a '+' or '-'
      before them keeps or negates it ("+5" is 5, "-0" is 0). */
  lemma {:induction false} ParseIntValue(d: string)
    requires |d| > 0 && AllDigits(d)
    ensures ParseInt(d) == Some(DecimalToNat(d))
    ensures ParseInt("+" + d) == Some(DecimalToNat(d))
    ensures ParseInt("-" + d) == Some(-(DecimalToNat(d) as int))
  {
    assert !IsDigit('+') && !IsDigit('-');
    assert ("+" + d)[1..] == d && ("-" + d)[1..] == d;
    assert IsDigit(d[0]);
  }

  /** What parses is exactly sign-plus-digits text, and a text without any
      digit (such as "abc" or "") is always rejected. */
  lemma ParseIntAccepts(text: string)
    ensures ParseInt(text).Some? <==>
              (|text| > 0 && AllDigits(text)) ||
              (|text| > 1 && (text[0] == '-' || text[0] == '+') && AllDigits(text[1..]))
    ensures (forall i :: 0 <= i < |text| ==> !IsDigit(text[i])) ==> ParseInt(text).None?
  {
    if |text| > 0 && (text[0] == '-' || text[0] == '+') {
      assert !IsDigit(text[0]);
    }
  }
}

=== FILE: timer.dfy ===
/** `PomodoroTimer` with the fields its methods update in place. Each
    method is proved to move the snapshot of the fields exactly as the
    corresponding step of TimerSpec does, and states its main effect
    directly as well. */
module Timer {
  import opened Decimal
  import opened TimerSpec

  class PomodoroTimer {
    var pomodoroTime: int
    var shortBreakTime: int
    var longBreakTime: int
    var pomodoroCount: nat
    var timerRunning: bool
    var currentTimeLeft: int
    var blinking: bool
    var blinkCount: nat
    var highlighted: bool
    var phase: Phase

    /** The fields as a TimerState value. */
    function Snapshot(): TimerState
      reads this
    {
      TimerState(pomodoroTime, shortBreakTime, longBreakTime, pomodoroCount, timerRunning,
                 currentTimeLeft, blinking, blinkCount, highlighted, phase)
    }

    /** `__init__`: 50, 10 and 30 minutes, Idle, stopped, the full work
        duration on the display. */
    constructor ()
      ensures Snapshot() == Initial()
      ensures phase == Idle && !timerRunning && currentTimeLeft == pomodoroTime == 3000
    {
      pomodoroTime := 50 * 60;
      shortBreakTime := 10 * 60;
      longBreakTime := 30 * 60;
      pomodoroCount := 0;
      timerRunning := false;
      currentTimeLeft := pomodoroTime;
      blinking := false;
      blinkCount := 0;
      highlighted := false;
      phase := Idle;
    }

    /** `start_timer`: start when stopped, pause when running. The phase is
        not changed, not even from Idle. */
    method StartTimer()
      modifies this
      ensures Snapshot() == Toggle(old(Snapshot()))
      ensures timerRunning == !old(timerRunning)
      ensures Toggle(Snapshot()) == old(Snapshot())
    {
      if !timerRunning {
        timerRunning := true;
      } else {
        timerRunning := false;
      }
    }

    /** One iteration of the `run_timer` loop: one second off, only while
        time is left and the timer runs. */
    method Tick()
      modifies this
      ensures Snapshot() == TimerSpec.Tick(old(Snapshot()))
      ensures currentTimeLeft ==
                if old(currentTimeLeft) > 0 && timerRunning then old(currentTimeLeft) - 1
                else old(currentTimeLeft)
    {
      if currentTimeLeft > 0 && timerRunning {
        currentTimeLeft := currentTimeLeft - 1;
      }
    }

    /** `run_timer` run to its end without interruption: count down to zero,
        then complete the phase if the timer is still running. */
    method RunTimer()
      modifies this
      ensures Snapshot() == Run(old(Snapshot()))
      ensures old(timerRunning) ==> Snapshot() == Complete(old(Snapshot()).(timeLeft := Min(old(currentTimeLeft), 0)))
      ensures !old(timerRunning) ==> Snapshot() == old(Snapshot())
    {
      ghost var start := Snapshot();
      ghost var done: nat := 0;
      while currentTimeLeft > 0 && timerRunning
        invariant Snapshot() == Ticks(start, done)
        invariant done <= LoopCount(start)
        invariant currentTimeLeft > 0 && timerRunning ==> done < LoopCount(start)
        decreases currentTimeLeft
      {
        TicksFloorAtZero(start, done);
        Tick();
        done := done + 1;
      }
      TicksFloorAtZero(start, done);
      TicksFloorAtZero(start, LoopCount(start));
      if currentTimeLeft <= 0 && timerRunning {
        TimerComplete();
      }
      if start.running {
        RunCompletes(start);
      }
    }

    /** `blink_background`: after ten toggles the next call stops the blink
        and restores the original colour; until then, while blinking, each
        call toggles the colour and counts. */
    method BlinkBackground()
      modifies this
      ensures Snapshot() == BlinkStep(old(Snapshot()))
      ensures old(blinkCount) <= BlinkLimit ==> blinkCount <= BlinkLimit
    {
      if blinkCount >= BlinkLimit {
        blinking := false;
        blinkCount := 0;
        highlighted := false;
        return;
      }
      if blinking {
        highlighted := !highlighted;
        blinkCount := blinkCount + 1;
      }
    }

    /** `timer_complete`: stop, start the blink, then arm the next phase;
        completing Working counts one interval and picks the long break on
        every fourth. */
    method TimerComplete()
      modifies this
      ensures Snapshot() == Complete(old(Snapshot()))
      ensures !timerRunning
      ensures old(phase) == Working ==> pomodoroCount == old(pomodoroCount) + 1
      ensures old(phase) == Working ==>
                phase == (if pomodoroCount % LongBreakEvery == 0 then LongBreak else ShortBreak)
      ensures old(phase) != Working ==>
                phase == Working && pomodoroCount == old(pomodoroCount)
                && currentTimeLeft == pomodoroTime
    {
      timerRunning := false;
      blinking := true;
      BlinkBackground();
      if phase == Working {
        pomodoroCount := pomodoroCount + 1;
        if pomodoroCount % LongBreakEvery == 0 {
          currentTimeLeft := longBreakTime;
          phase := LongBreak;
        } else {
          currentTimeLeft := shortBreakTime;
          phase := ShortBreak;
        }
      } else {
        currentTimeLeft := pomodoroTime;
        phase := Working;
      }
    }

    /** `reset_timer`: back to Idle with the full work duration, count
        zero, stopped, blink cancelled; durations kept. */
    method ResetTimer()
      modifies this
      ensures Snapshot() == Reset(old(Snapshot()))
      ensures phase == Idle && !timerRunning && pomodoroCount == 0 && currentTimeLeft == pomodoroTime
      ensures !blinking && blinkCount == 0 && !highlighted
      ensures pomodoroTime == old(pomodoroTime) && shortBreakTime == old(shortBreakTime)
      ensures longBreakTime == old(longBreakTime)
    {
      timerRunning := false;
      blinking := false;
      blinkCount := 0;
      highlighted := false;
      pomodoroCount := 0;
      currentTimeLeft := pomodoroTime;
      phase := Idle;
    }

    /** `apply_settings` on the texts of the three minute entries. `ok`
        tells whether all three parsed (success message) or one failed
        (error message); the fields assigned before a failure keep their
        new values. */
    method ApplySettings(workText: string, shortText: string, longText: string) returns (ok: bool)
      modifies this
      ensures (Snapshot(), ok) == Apply(old(Snapshot()), workText, shortText, longText)
      ensures phase == old(phase) && pomodoroCount == old(pomodoroCount)
      ensures timerRunning == old(timerRunning)
      ensures ok <==> ParseInt(workText).Some? && ParseInt(shortText).Some? && ParseInt(longText).Some?
    {
      var work := ParseInt(workText);
      if work.None? {
        return false;
      }
      pomodoroTime := work.value * 60;
      var shortBreak := ParseInt(shortText);
      if shortBreak.None? {
        return false;
      }
      shortBreakTime := shortBreak.value * 60;
      var longBreak := ParseInt(longText);
      if longBreak.None? {
        return false;
      }
      longBreakTime := longBreak.value * 60;
      if !timerRunning {
        currentTimeLeft := pomodoroTime;
      }
      ok := true;
    }
  }

  /** A session on any timer object: reset, then start and run out twice.
      The first run only arms Working; the second counts one interval and
      arms the short break. */
  method TwoRunsAfterReset(t: PomodoroTimer)
    modifies t
    ensures t.phase == ShortBreak && t.pomodoroCount == 1 && !t.timerRunning
    ensures t.currentTimeLeft == t.shortBreakTime == old(t.shortBreakTime)
  {
    t.ResetTimer();
    t.StartTimer();
    ghost var idle := t.Snapshot().(timeLeft := Min(t.currentTimeLeft, 0));
    t.RunTimer();
    NonWorkCompletion(idle);
    t.StartTimer();
    ghost var working := t.Snapshot().(timeLeft := Min(t.currentTimeLeft, 0));
    t.RunTimer();
    WorkCompletion(working);
  }
}

=== FILE: timer_spec.dfy ===
/** The pomodoro state machine of `PomodoroTimer` as values: a snapshot of
    the timer's fields and one pure function per step. The class in module
    Timer updates its fields in place and is proved to follow these
    functions; the lemmas here state what the steps guarantee. */
module TimerSpec {
  import opened Decimal
  import Clock

  /** The status label: "준비" Idle, "작업 중" Working, "짧은 휴식"
      ShortBreak, "긴 휴식" LongBreak. */
  datatype Phase = Idle | Working | ShortBreak | LongBreak

  /** Every field of the timer the state machine reads or writes. Durations
      and the remaining time are seconds; `highlighted` is true while the
      background shows the blink colour instead of the original one. */
  datatype TimerState = TimerState(
    pomodoroTime: int,
    shortBreakTime: int,
    longBreakTime: int,
    pomodoroCount: nat,
    running: bool,
    timeLeft: int,
    blinking: bool,
    blinkCount: nat,
    highlighted: bool,
    phase: Phase)

  /** Blinking stops once the background has been toggled this many times. */
  const BlinkLimit: nat := 10

  /** Every fourth completed work interval earns a long break. */
  const LongBreakEvery: nat := 4

  /** The state `__init__` builds: 50, 10 and 30 minutes, Idle, stopped. */
  function Initial(): (r: TimerState)
    ensures r.phase == Idle && !r.running && r.pomodoroCount == 0
    ensures !r.blinking && r.blinkCount == 0 && !r.highlighted
    ensures r.pomodoroTime == 50 * 60 && r.shortBreakTime == 10 * 60 && r.longBreakTime == 30 * 60
    ensures r.timeLeft == r.pomodoroTime > r.longBreakTime > r.shortBreakTime > 0
  {
    TimerState(50 * 60, 10 * 60, 30 * 60, 0, false, 50 * 60, false, 0, false, Idle)
  }

  /** The start/pause button. */
  function Toggle(s: TimerState): (r: TimerState)
    ensures r.running != s.running && r.(running := s.running) == s
  {
    s.(running := !s.running)
  }

  /** One iteration of the countdown loop, which runs only while time is
      left and the timer is running. */
  function Tick(s: TimerState): (r: TimerState)
    ensures r == s.(timeLeft := r.timeLeft)
    ensures r.timeLeft == s.timeLeft || (s.running && r.timeLeft == s.timeLeft - 1 >= 0)
  {
    if s.timeLeft > 0 && s.running then s.(timeLeft := s.timeLeft - 1) else s
  }

  function Ticks(s: TimerState, n: nat): (r: TimerState)
    ensures r == s.(timeLeft := r.timeLeft)
    ensures r.timeLeft <= s.timeLeft && (s.timeLeft >= 0 ==> r.timeLeft >= 0)
    ensures s.timeLeft - r.timeLeft <= n
  {
    if n == 0 then s else Tick(Ticks(s, n - 1))
  }

  /** One call of `blink_background`. */
  function BlinkStep(s: TimerState): (r: TimerState)
    ensures r == s.(blinking := r.blinking, blinkCount := r.blinkCount, highlighted := r.highlighted)
    ensures s.blinkCount <= BlinkLimit ==> r.blinkCount <= BlinkLimit
    ensures r.blinking ==> s.blinking
  {
    if s.blinkCount >= BlinkLimit then s.(blinking := false, blinkCount := 0, highlighted := false)
    else if s.blinking then s.(highlighted := !s.highlighted, blinkCount := s.blinkCount + 1)
    else s
  }

  function Blinks(s: TimerState, n: nat): (r: TimerState)
    ensures r == s.(blinking := r.blinking, blinkCount := r.blinkCount, highlighted := r.highlighted)
    ensures s.blinkCount <= BlinkLimit ==> r.blinkCount <= BlinkLimit
    ensures r.blinking ==> s.blinking
  {
    if n == 0 then s else BlinkStep(Blinks(s, n - 1))
  }

  /** `timer_complete`: stop, start blinking (one blink step happens at
      once), then arm the next phase. Only Working counts a cycle; every
      other phase, Idle included, arms Working. */
  function Complete(s: TimerState): (r: TimerState)
    ensures !r.running && r.phase != Idle
    ensures r.pomodoroTime == s.pomodoroTime && r.shortBreakTime == s.shortBreakTime
    ensures r.longBreakTime == s.longBreakTime
    ensures r.pomodoroCount == s.pomodoroCount + (if s.phase == Working then 1 else 0)
  {
    var b := BlinkStep(s.(running := false, blinking := true));
    if s.phase == Working then
      var count := s.pomodoroCount + 1;
      if count % LongBreakEvery == 0 then
        b.(pomodoroCount := count, timeLeft := s.longBreakTime, phase := LongBreak)
      else
        b.(pomodoroCount := count, timeLeft := s.shortBreakTime, phase := ShortBreak)
    else
      b.(timeLeft := s.pomodoroTime, phase := Working)
  }

  /** The check after the countdown loop: complete only if time is up and
      the timer was not paused. */
  function FinishRun(s: TimerState): (r: TimerState)
    ensures r == s || (s.running && !r.running)
  {
    if s.timeLeft <= 0 && s.running then Complete(s) else s
  }

  /** The number of loop iterations a run performs when nobody pauses it. */
  function LoopCount(s: TimerState): (r: nat)
    ensures r > 0 <==> s.running && s.timeLeft > 0
  {
    if s.running && s.timeLeft > 0 then s.timeLeft else 0
  }

  /** A whole `run_timer` call that nobody interrupts. */
  function Run(s: TimerState): (r: TimerState)
    ensures s.running ==> !r.running && r.phase != Idle
    ensures !s.running ==> r == s
  {
    TicksFloorAtZero(s, LoopCount(s));
    FinishRun(Ticks(s, LoopCount(s)))
  }

  /** `reset_timer`. */
  function Reset(s: TimerState): (r: TimerState)
    ensures r.pomodoroTime == s.pomodoroTime && r.shortBreakTime == s.shortBreakTime
    ensures r.longBreakTime == s.longBreakTime
    ensures r.phase == Idle && !r.running && !r.blinking && r.timeLeft == r.pomodoroTime
    ensures r.pomodoroCount == 0 && r.blinkCount == 0 && !r.highlighted
  {
    s.(running := false, blinking := false, blinkCount := 0, highlighted := false,
       pomodoroCount := 0, timeLeft := s.pomodoroTime, phase := Idle)
  }

  /** `apply_settings` on the three entry texts: each minute value is
      parsed and stored as seconds in turn, and the first parse failure
      abandons the rest (the earlier assignments stay). Only when all three
      parse and the timer is stopped is the remaining time set to the new
      work duration. The boolean tells whether the success message or the
      error message is shown. */
  function Apply(s: TimerState, workText: string, shortText: string, longText: string): (r: (TimerState, bool))
    ensures r.0.phase == s.phase && r.0.pomodoroCount == s.pomodoroCount && r.0.running == s.running
    ensures r.0.blinking == s.blinking && r.0.blinkCount == s.blinkCount
    ensures !r.1 ==> r.0.timeLeft == s.timeLeft && r.0.longBreakTime == s.longBreakTime
    ensures r.1 ==> ParseInt(workText).Some? && ParseInt(shortText).Some? && ParseInt(longText).Some?
    ensures r.1 && !s.running ==> r.0.timeLeft == r.0.pomodoroTime
  {
    match ParseInt(workText)
    case None => (s, false)
    case Some(work) =>
      var s1 := s.(pomodoroTime := work * 60);
      match ParseInt(shortText)
      case None => (s1, false)
      case Some(shortBreak) =>
        var s2 := s1.(shortBreakTime := shortBreak * 60);
        match ParseInt(longText)
        case None => (s2, false)
        case Some(longBreak) =>
          var s3 := s2.(longBreakTime := longBreak * 60);
          (if s3.running then s3 else s3.(timeLeft := s3.pomodoroTime), true)
  }

  /** The user presses start on a stopped timer and lets it run out. */
  function Cycle(s: TimerState): (r: TimerState)
    ensures r.pomodoroTime == s.pomodoroTime && r.shortBreakTime == s.shortBreakTime
    ensures r.longBreakTime == s.longBreakTime
  {
    Run(Toggle(s))
  }

  function Cycles(s: TimerState, n: nat): (r: TimerState)
    ensures r.pomodoroTime == s.pomodoroTime && r.shortBreakTime == s.shortBreakTime
    ensures r.longBreakTime == s.longBreakTime
  {
    if n == 0 then s else Cycle(Cycles(s, n - 1))
  }

  function Max(a: int, b: int): (r: int)
    ensures r >= a && r >= b && (r == a || r == b)
  {
    if a >= b then a else b
  }

  function Min(a: int, b: int): (r: int)
    ensures r <= a && r <= b && (r == a || r == b)
  {
    if a <= b then a else b
  }

  // ---------------------------------------------------------------------
  // Start/pause

  /** The button flips `running` and nothing else, so two presses restore
      the state. */
  lemma ToggleFlipsRunning(s: TimerState)
    ensures Toggle(s).running == !s.running
    ensures Toggle(s).(running := s.running) == s
    ensures Toggle(Toggle(s)) == s
  {
  }

  // ---------------------------------------------------------------------
  // Countdown

  /** `n` iterations of the loop on a running timer with time left leave
      `max(0, t - n)`: each takes exactly one second off, never below zero.
      A paused timer, or one with no time left, does not move. Nothing but
      the remaining time ever changes. */
  lemma {:induction false} TicksFloorAtZero(s: TimerState, n: nat)
    ensures Ticks(s, n) == s.(timeLeft := Ticks(s, n).timeLeft)
    ensures Ticks(s, n).timeLeft ==
              if s.running && s.timeLeft > 0 then Max(0, s.timeLeft - n) else s.timeLeft
    ensures s.timeLeft >= 0 ==> Ticks(s, n).timeLeft == s.timeLeft - (if s.running then Min(n, s.timeLeft) else 0)
  {
    if n > 0 {
      TicksFloorAtZero(s, n - 1);
    }
  }

  /** Completion fires exactly when time is up on a running timer, and
      then the timer is stopped. */
  lemma CompletionTrigger(s: TimerState)
    ensures FinishRun(s) != s <==> s.timeLeft <= 0 && s.running
    ensures s.timeLeft <= 0 && s.running ==> !FinishRun(s).running
  {
  }

  /** Completion stops the timer and starts the blink with its first
      toggle, unless a previous blink had just reached its limit: its final
      step then runs here, ending the blink on the original colour. */
  lemma CompletionStartsBlink(s: TimerState)
    ensures var r := Complete(s);
      !r.running && r.blinking == (s.blinkCount < BlinkLimit)
      && (s.blinkCount < BlinkLimit ==>
            r.blinkCount == s.blinkCount + 1 && r.highlighted == !s.highlighted)
      && (s.blinkCount >= BlinkLimit ==> r.blinkCount == 0 && !r.highlighted)
  {
  }

  /** A run that nobody pauses ends in completion whenever it starts
      running, from any remaining time; the completed phase is the one the
      timer was in. */
  lemma {:induction false} RunCompletes(s: TimerState)
    requires s.running
    ensures Run(s) == Complete(s.(timeLeft := if s.timeLeft > 0 then 0 else s.timeLeft))
  {
    TicksFloorAtZero(s, LoopCount(s));
  }

  // ---------------------------------------------------------------------
  // Phase completion

  /** Completing a work interval counts it; the new count decides the
      break: a multiple of four gives the long break, anything else the
      short one, each armed with its full duration. */
  lemma WorkCompletion(s: TimerState)
    requires s.phase == Working
    ensures var r := Complete(s);
      r.pomodoroCount == s.pomodoroCount + 1
      && (r.phase == LongBreak <==> r.pomodoroCount % LongBreakEvery == 0)
      && (r.phase == ShortBreak <==> r.pomodoroCount % LongBreakEvery != 0)
      && r.timeLeft == (if r.phase == LongBreak then s.longBreakTime else s.shortBreakTime)
      && !r.running
  {
  }

  /** Completing anything but Working (Idle included) arms Working with
      the work duration and counts nothing. */
  lemma NonWorkCompletion(s: TimerState)
    requires s.phase != Working
    ensures var r := Complete(s);
      r.phase == Working && r.timeLeft == s.pomodoroTime
      && r.pomodoroCount == s.pomodoroCount && !r.running
  {
  }

  /** The full frame of completion: it stops the timer and sets the
      count, the remaining time, the phase and the blink fields; the three
      durations are the only fields it never writes. */
  lemma CompletionKeepsDurations(s: TimerState)
    ensures var r := Complete(s);
      r == s.(running := false, pomodoroCount := r.pomodoroCount, timeLeft := r.timeLeft,
              phase := r.phase, blinking := r.blinking, blinkCount := r.blinkCount,
              highlighted := r.highlighted)
  {
  }

  /** One start-and-run-out from a stopped timer outside Working arms
      Working without counting. */
  lemma {:induction false} CycleFromRest(s: TimerState)
    requires !s.running && s.phase != Working
    ensures Cycle(s).phase == Working && Cycle(s).pomodoroCount == s.pomodoroCount
    ensures !Cycle(s).running && Cycle(s).timeLeft == s.pomodoroTime
  {
    RunCompletes(Toggle(s));
  }

  /** One start-and-run-out from a stopped Working timer counts one work
      interval and arms the break the new count calls for. */
  lemma {:induction false} CycleFromWork(s: TimerState)
    requires !s.running && s.phase == Working
    ensures var r := Cycle(s);
      r.pomodoroCount == s.pomodoroCount + 1 && !r.running
      && r.phase == (if r.pomodoroCount % LongBreakEvery == 0 then LongBreak else ShortBreak)
      && r.timeLeft == (if r.pomodoroCount % LongBreakEvery == 0 then s.longBreakTime else s.shortBreakTime)
  {
    RunCompletes(Toggle(s));
  }

  /** The phase sequence after a reset, when the user keeps pressing start
      and letting each phase run out: the first run only arms Working (start
      does not enter Working by itself), then work and breaks alternate; the
      n-th break is long exactly when n is a multiple of four, and after it
      n work intervals have been counted. */
  lemma {:induction false} LongBreakEveryFourth(s: TimerState, n: nat)
    ensures var r := Reset(s);
      Cycles(r, 2 * n + 1).phase == Working && Cycles(r, 2 * n + 1).pomodoroCount == n
      && !Cycles(r, 2 * n + 1).running
      && Cycles(r, 2 * n + 2).pomodoroCount == n + 1 && !Cycles(r, 2 * n + 2).running
      && Cycles(r, 2 * n + 2).phase == (if (n + 1) % LongBreakEvery == 0 then LongBreak else ShortBreak)
  {
    var r := Reset(s);
    if n == 0 {
      assert Cycles(r, 1) == Cycle(r);
      CycleFromRest(r);
    } else {
      LongBreakEveryFourth(s, n - 1);
      var b := Cycles(r, 2 * n);
      assert Cycles(r, 2 * n + 1) == Cycle(b);
      CycleFromRest(b);
    }
    CycleFromWork(Cycles(r, 2 * n + 1));
  }

  // ---------------------------------------------------------------------
  // Reset

  /** Reset from any state: stopped, no blink, count zero, Idle, the full
      work duration left; the durations are untouched and a second reset
      changes nothing. */
  lemma ResetState(s: TimerState)
    ensures var r := Reset(s);
      !r.running && !r.blinking && r.blinkCount == 0 && !r.highlighted
      && r.pomodoroCount == 0 && r.phase == Idle && r.timeLeft == s.pomodoroTime
      && r.pomodoroTime == s.pomodoroTime && r.shortBreakTime == s.shortBreakTime
      && r.longBreakTime == s.longBreakTime
    ensures Reset(Reset(s)) == Reset(s)
  {
  }

  /** Reset leaves a state that does not depend on where the timer was:
      two timers with the same durations reset to the same state. */
  lemma ResetForgetsHistory(s: TimerState, t: TimerState)
    requires s.pomodoroTime == t.pomodoroTime && s.shortBreakTime == t.shortBreakTime
    requires s.longBreakTime == t.longBreakTime
    ensures Reset(s) == Reset(t)
  {
  }

  // ---------------------------------------------------------------------
  // Blinking

  /** A blink started from the original background with a zero count
      toggles the background exactly ten times: after k <= 10 steps the
      count is k and the blink colour shows for odd k; the eleventh step
      ends it on the original colour with the count back at zero. */
  lemma {:induction false} BlinkSequence(s: TimerState, k: nat)
    requires s.blinking && s.blinkCount == 0 && !s.highlighted
    requires k <= BlinkLimit
    ensures Blinks(s, k).blinkCount == k && Blinks(s, k).blinking
    ensures Blinks(s, k).highlighted == (k % 2 == 1)
    ensures Blinks(s, k) == s.(blinkCount := k, highlighted := k % 2 == 1)
    ensures k == BlinkLimit ==>
              Blinks(s, k + 1) == s.(blinking := false, blinkCount := 0, highlighted := false)
  {
    if k > 0 {
      BlinkSequence(s, k - 1);
    }
  }

  /** A stopped blink stays stopped until something sets `blinking`. */
  lemma {:induction false} BlinkIdle(s: TimerState, k: nat)
    requires !s.blinking && s.blinkCount < BlinkLimit
    ensures Blinks(s, k) == s
  {
    if k > 0 {
      BlinkIdle(s, k - 1);
    }
  }

  // ---------------------------------------------------------------------
  // Settings

  /** The settings update is not atomic: a parse failure keeps the fields
      assigned before it, leaves the failing field and those after it
      alone, and never touches the remaining time. A full success stores
      each minute value as seconds and, on a stopped timer, sets the
      remaining time to the new work duration whatever the phase. Phase,
      count, running flag and blink are never touched. */
  lemma ApplyInOrder(s: TimerState, workText: string, shortText: string, longText: string)
    ensures var (r, ok) := Apply(s, workText, shortText, longText);
      r.phase == s.phase && r.pomodoroCount == s.pomodoroCount && r.running == s.running
      && r.blinking == s.blinking && r.blinkCount == s.blinkCount && r.highlighted == s.highlighted
      && (ParseInt(workText).None? ==> r == s && !ok)
      && (ParseInt(workText).Some? ==> r.pomodoroTime == ParseInt(workText).value * 60)
      && (ParseInt(workText).Some? && ParseInt(shortText).None? ==>
            r == s.(pomodoroTime := r.pomodoroTime) && !ok)
      && (ParseInt(workText).Some? && ParseInt(shortText).Some? ==>
            r.shortBreakTime == ParseInt(shortText).value * 60)
      && (ok <==> ParseInt(workText).Some? && ParseInt(shortText).Some? && ParseInt(longText).Some?)
      && (!ok ==> r.timeLeft == s.timeLeft && r.longBreakTime == s.longBreakTime)
      && (ok ==> r.longBreakTime == ParseInt(longText).value * 60
                 && r.timeLeft == (if s.running then s.timeLeft else r.pomodoroTime))
  {
  }

  /** Applying the same texts twice has the effect of applying them once. */
  lemma ApplyIdempotent(s: TimerState, workText: string, shortText: string, longText: string)
    ensures var r := Apply(s, workText, shortText, longText).0;
      Apply(r, workText, shortText, longText) == Apply(s, workText, shortText, longText)
  {
  }

  /** After a successful update of a stopped timer with `m >= 0` minutes
      of work, the display reads `m` minutes and zero seconds. */
  lemma ApplyShowsWholeMinutes(s: TimerState, workText: string, shortText: string, longText: string)
    requires !s.running
    requires ParseInt(workText).Some? && ParseInt(workText).value >= 0
    requires Apply(s, workText, shortText, longText).1
    ensures var r := Apply(s, workText, shortText, longText).0;
      Clock.ParseClock(Clock.FormatTime(r.timeLeft)) == Some(ParseInt(workText).value * 60)
      && Clock.FormatTime(r.timeLeft) == Clock.Pad2(ParseInt(workText).value) + ":00"
  {
    var m := ParseInt(workText).value;
    var r := Apply(s, workText, shortText, longText).0;
    assert r.timeLeft == m * 60;
    assert (m * 60) / 60 == m && (m * 60) % 60 == 0;
    Clock.ClockRoundTrip(m * 60);
  }

  /** There is no positivity check: a stopped timer given "-1" as its work
      minutes accepts it and shows a negative remaining time, which the
      display cannot read back as a clock value. */
  lemma NegativeMinutesAccepted(s: TimerState)
    requires !s.running
    ensures var (r, ok) := Apply(s, "-1", "5", "15");
      ok && r.pomodoroTime == -60 && r.timeLeft == -60
      && Clock.ParseClock(Clock.FormatTime(r.timeLeft)).None?
  {
    assert "-1"[1..] == "1";
    assert DecimalToNat("1") == 1;
    assert DecimalToNat("5") == 5;
    assert DecimalToNat("15") == DecimalToNat("1") * 10 + 5;
    Clock.ClockRoundTrip(-60);
  }

  // ---------------------------------------------------------------------
  // Invariant

  /** The conditions under which the display stays a clock reading: all
      durations and the remaining time non-negative, blink count within
      its limit. The source does not enforce them (see ApplyKeepsSane). */
  predicate Sane(s: TimerState) {
    s.pomodoroTime >= 0 && s.shortBreakTime >= 0 && s.longBreakTime >= 0
    && s.timeLeft >= 0 && s.blinkCount <= BlinkLimit
  }

  /** The start of the program is sane, and every step except the
      settings update keeps it so. */
  lemma {:induction false} StepsKeepSane(s: TimerState, n: nat)
    requires Sane(s)
    ensures Sane(Initial())
    ensures Sane(Toggle(s)) && Sane(Tick(s)) && Sane(BlinkStep(s)) && Sane(Complete(s))
    ensures Sane(FinishRun(s)) && Sane(Reset(s)) && Sane(Ticks(s, n)) && Sane(Run(s))
    ensures Sane(Cycle(s))
  {
    TicksFloorAtZero(s, n);
    TicksFloorAtZero(s, LoopCount(s));
    var t := Toggle(s);
    TicksFloorAtZero(t, LoopCount(t));
  }

  /** The settings update keeps the invariant exactly when no minute value
      it manages to store is negative. */
  lemma ApplyKeepsSane(s: TimerState, workText: string, shortText: string, longText: string)
    requires Sane(s)
    ensures var (r, ok) := Apply(s, workText, shortText, longText);
      Sane(r) <==>
        (ParseInt(workText).Some? ==> ParseInt(workText).value >= 0)
        && (ParseInt(workText).Some? && ParseInt(shortText).Some? ==> ParseInt(shortText).value >= 0)
        && (ParseInt(workText).Some? && ParseInt(shortText).Some? && ParseInt(longText).Some? ==>
              ParseInt(longText).value >= 0)
  {
  }
}
